=== FILE: README.md ===
# Telegram login handshake and company access, in Dafny

This project models the authentication core of a multi-tenant task-tracking
REST backend (Express and MySQL). Four parts are covered:

- the bearer-token `auth` middleware;
- the three-step Telegram login handshake under `/auth/telegram/...`:
  1. login issues a temporary token;
  2. the user lists their companies;
  3. the user selects a company, or creates one, and gets a session token;
- `/auth/me` and `/auth/logout`;
- the `/companies` routes, which list and create companies scoped by membership.

Every handler is a pure function from the request (the `Authorization`
header, the body fields it reads, and a token verifier) and the tables to a
reply. Handlers that write also return the new tables.

Modules, one per concern:

| file | module | models |
|---|---|---|
| values.dfy | `Values` | JSON body values and the JavaScript truthiness of `!x` |
| header.dfy | `BearerHeader` | `header.split(' ')[1]`: JavaScript `split` with a proved split/join round trip |
| tokens.dfy | `Tokens` | token claims (`id`, optional `type: 'temp'`), lifetimes (5 minutes and 7 days), the verifier |
| tables.dfy | `Tables` | `users`, `companies` and `user_companies` as rows in table order, with AUTO_INCREMENT counters, queries, inserts, and a consistency invariant |
| http.dfy | `Http` | status and body replies, and the error messages |
| middleware.dfy | `AuthMiddleware` | the `auth` gate |
| auth_routes.dfy | `AuthRoutes` | `verifyTempToken` and the `/auth` routes |
| company_routes.dfy | `CompanyRoutes` | `GET /companies` and `POST /companies` |
| handshake.dfy | `Handshake` | properties spanning several requests |

Behaviour of the code worth knowing:

- No route behind the gate checks the token kind. A temporary token passes
  the session gate like a session token does
  (`Handshake.TempTokenOpensSessionRoutes`).
- The `Authorization` header's first word is never checked. The token is
  whatever `split(' ')[1]` yields, so `Foo abc` works like `Bearer abc`.
- An empty header counts as missing, because `!""` is true.
- Any object or array in the body is truthy, even `[]` or `{}`, so it passes
  a presence check (`CompanyRoutes.CompositeNameAccepted`).
- On the temporary-token routes, a verified temporary token whose `id` claim
  is falsy (0) makes the handler return without sending any reply. This is
  modelled as `NoReply`. The server only signs ids that are positive row ids
  (`Handshake.LoginKeepsStoreValid`), so this case never arises from its own
  tokens.

## Model

| member | source | states |
|---|---|---|
| BearerHeader.Split | src/middleware/auth.js:8 | `split(' ')` returns at least one piece, and no piece contains the separator |
| BearerHeader.SplitThenJoin | src/middleware/auth.js:8 | joining the pieces of a split with the separator rebuilds the original header |
| BearerHeader.JoinThenSplit | src/middleware/auth.js:8 | splitting a join of separator-free pieces returns exactly those pieces, so the pieces are determined by the header |
| BearerHeader.ReadCredential | src/middleware/auth.js:5-9 | the header counts as missing exactly when it is absent or empty; an extracted token is non-empty and has no space |
| BearerHeader.SecondWordIsToken | src/middleware/auth.js:8-9 | for any space-free words with a non-empty second word, the token read from their space-join is the second word, whatever the first word and the rest are |
| BearerHeader.TokenIsSecondWord | src/middleware/auth.js:8-9 | conversely, an extracted token is always the second word of some space-join that equals the header |
| BearerHeader.SchemeIgnored | src/middleware/auth.js:8 | replacing the first word by any other space-free word gives the same outcome |
| BearerHeader.OneWordIsMalformed | src/middleware/auth.js:8-9 | a non-empty header without a space has no second piece, so it is malformed |
| BearerHeader.BareSchemeIsMalformed | src/middleware/auth.js:8-9 | `Bearer` and `Bearer ` (empty second piece) are both malformed |
| BearerHeader.DoubleSpaceIsMalformed | src/middleware/auth.js:8-9 | `Bearer  abc` has an empty second piece, so it is malformed |
| BearerHeader.OtherSchemeExample | src/middleware/auth.js:8 | `Foo abc` yields the token `abc` |
| BearerHeader.TrailingWordsExample | src/middleware/auth.js:8 | `Bearer abc def` yields the token `abc` |
| Values.Truthy | src/routes/auth.js:32-34 | `!v` is true exactly for the JSON values JavaScript treats as falsy: undefined, `null`, `false`, `0` and `""`; every other number, string, object and array passes a presence check |
| Values.OrNull | src/routes/auth.js:44 | `username \|\| null` keeps a truthy value as it is and turns every falsy one into `null`, so the stored username is never undefined and is truthy exactly when the given one is |
| Tokens.TempToken | src/routes/auth.js:50 | the login token carries the user's id and the `temp` type claim, and lives 300 seconds |
| Tokens.SessionToken | src/routes/auth.js:76 | the session token carries the user's id and no `type` claim, so it is not temporary, and lives 604800 seconds (7 days) |
| Tokens.IsTemp | src/routes/auth.js:22 | a payload is temporary exactly when its `type` claim is the string `temp`; `Tokens.TempToken` and `Tokens.SessionToken` state that their payloads are and are not temporary |
| Tables.InsertUser | src/routes/auth.js:42-46 | the user insert appends one row with the next user id as `insertId`, a NULL email and the given columns, advances only the user counter, and in a consistent store returns an id above every existing user id |
| Tables.InsertOwnedCompany | src/routes/auth.js:86-90 | the company insert and the owner-membership insert append one company row and one `owner` membership with the next company id, advance only the company counter, and in a consistent store return an id above every existing company id |
| AuthRoutes.TempAccepted | src/routes/auth.js:55-56 | a request gets past `verifyTempToken` and `if (!userId) return;` exactly when the gate would pass it, the payload's `type` is `temp`, and its `id` is not 0 |
| AuthRoutes.MemberOfRequested | src/routes/auth.js:71-75 | the membership query finds a row exactly when some membership row pairs the user with a company id equal to the requested JSON value |
| AuthMiddleware.Gate | src/middleware/auth.js:4-18 | the outcome is either a 401 or `next` with a payload, never both; a missing header, a malformed header and a failed verification each give their own 401 message; `next` happens exactly when a token was extracted and verifies, and it carries the whole decoded payload |
| AuthMiddleware.GateIgnoresTokenType | src/middleware/auth.js:11-14 | for a `<scheme> <token>` header whose token verifies, the gate passes that payload, whatever its `type` claim |
| Tables.UserByTelegram | src/routes/auth.js:39-48 | no id is found exactly when no user row has that Telegram id; a found id belongs to a row with that Telegram id |
| Tables.UserById | src/routes/auth.js:97-98 | no row is found exactly when no user row has that id; a found row is in the table and has that id |
| Tables.JoinCompanies | src/routes/companies.js:11-15 | a company appears in the join exactly when a company row with that id and name exists and a membership row pairs the user with that id |
| Tables.InsertUserFindsNewUser | src/routes/auth.js:41-46 | after inserting a user for an unseen Telegram id, that id finds the new row's `insertId`; in a consistent store the new id was unused and the store stays consistent |
| Tables.InsertOwnedCompanyEffect | src/routes/companies.js:22-23 | the company insert plus the membership insert use an id no company had, make the owner a member of it, change no other membership, and keep the store consistent |
| AuthRoutes.VerifyTempToken | src/routes/auth.js:9-28 | a user id is bound exactly when the gate would pass the request and the payload's `type` is `temp`, and it is the payload's `id`; header failures reuse the gate's 401 replies; any other failure is 401 "Invalid or expired token" |
| AuthRoutes.SessionTokenRefused | src/routes/auth.js:20-27 | a verified token without a `type` claim is refused with 401 "Invalid or expired token" |
| AuthRoutes.TelegramLogin | src/routes/auth.js:30-52 | a falsy `id`, `first_name` or `last_name` gives 400 and no write; otherwise 200 with a 5-minute `temp` token bound to the user that the Telegram id finds afterwards; a known Telegram id writes nothing; an unknown one appends exactly one row, with `username || null` and a NULL email, and advances the user counter by one; the company rows and the company counter are untouched |
| AuthRoutes.TelegramCompanies | src/routes/auth.js:54-63 | a temp-check failure is passed through; a falsy id gives no reply; success happens exactly when a temporary token with a truthy id is presented, and lists exactly the companies joined to that user |
| AuthRoutes.SelectCompany | src/routes/auth.js:65-78 | checks run in order: temporary token, then `companyId` presence (400), then membership (403, no token); success happens exactly when all three pass, and gives a 7-day session token for that user with no `type` claim; the store is only read |
| AuthRoutes.CreateCompanyAndLogin | src/routes/auth.js:80-93 | the temp check comes first, then a falsy `companyName` gives 400; nothing is written unless the call succeeds; on success the new company is owned by the user and appended with the next id, one `owner` membership is appended, the company counter advances by one while the user counter stays, and a 7-day session token is returned |
| AuthRoutes.Me | src/routes/auth.js:95-105 | a gate rejection is passed through; a missing user row gives 404; otherwise the reply is that row's id, names and email, plus exactly the companies joined to the user |
| AuthRoutes.Logout | src/routes/auth.js:107-109 | 204 with no body exactly when the gate passes, and otherwise the gate's own 401 reply with its message; there is no store to change |
| CompanyRoutes.ListCompanies | src/routes/companies.js:7-16 | a gate rejection is passed through; otherwise 200 with exactly the companies joined to `req.user.id` |
| CompanyRoutes.CompositeNameAccepted | src/routes/companies.js:19-24 | an object or array `name` passes `!name` and creates a company, answered 201 with the next id |
| CompanyRoutes.CreateCompany | src/routes/companies.js:18-25 | a gate rejection, or a falsy `name` (400), writes nothing; otherwise one company owned by the caller and one `owner` membership for the caller are appended, the company counter advances by one while the user counter stays, so two creations never reply with the same id, and the reply is 201 with the new id, the name and the caller's id |
| Handshake.LoginTwiceSameUser | src/routes/auth.js:39-49 | two logins with the same Telegram id bind the same user id, and the second login writes nothing |
| Handshake.LoginKeepsStoreValid | src/routes/auth.js:39-51 | login keeps the store consistent, and the temporary token's id is an existing user row with id at least 1 |
| Handshake.CreateCompanyAndLoginKeepsStoreValid | src/routes/auth.js:86-90 | creating a company during the handshake keeps the store consistent (every company has its owner membership; ids are fresh) |
| Handshake.CreateCompanyKeepsStoreValid | src/routes/companies.js:22-23 | creating a company behind the gate keeps the store consistent |
| Handshake.CreateThenSelect | src/routes/auth.js:65-93 | after a successful create-company-and-login, selecting the new company id with the same temporary token succeeds with the same session token |
| Handshake.SelectUnknownCompanyForbidden | src/routes/auth.js:71-75 | in a consistent store, selecting any company id at or above the next id to be handed out gives 403 and no token |
| Handshake.HandshakeCompletes | src/routes/auth.js:30-93 | with the temporary token from login, listing companies succeeds; creating a company returns a session token for the logged-in user; selecting that company then succeeds |
| Handshake.TempTokenOpensSessionRoutes | src/middleware/auth.js:11-14 | a temporary token is accepted by `GET /companies` and `/logout`, and also by the temporary-token check |
| Handshake.CreatedCompanyListedOnlyForOwner | src/routes/companies.js:9-25 | after `POST /companies`, the poster's listing includes the new company, no other user's listing does, and every other user's listing is unchanged |

## Left out

- JWT signing, verification and expiry are not modelled. Verification is the `Verifier` parameter; `None` stands for every way `jwt.verify` throws. Issued tokens record their claims and their lifetime in seconds. The `iat` and `exp` claims and the signing secret are not modelled.
- MySQL and the connection pool are not modelled. Tables are sequences of rows, and AUTO_INCREMENT is a counter. Both counters start at 1 in `Tables.EmptyStore`, which is consistent. `src/db.js` (the lazy pool) and `src/index.js` (router mounting and `listen`) are I/O plumbing and not part of this model.
- Tables.UserByTelegram: `rows[0]` is read as the first matching row in table order. SQL does not fix that order. In a consistent store at most one row matches, so the choice does not matter there.
- Tables.JoinCompanies: each company is listed once, in company table order. The SQL join repeats a company once per duplicate `(user, company)` membership row, and its row order is unspecified. The contract therefore fixes which companies are listed, not their order or repetition.
- AuthRoutes.SelectCompany: the membership lookup matches `companyId` only when it is a JSON number equal to the row's id. MySQL's coercion of a numeric string such as `"5"` to `5` is not modelled, so such a request gets 403 here.
- Telegram ids, names and company names are stored as the JSON value given, and lookups use exact equality. MySQL column types and their conversions are not modelled. JSON numbers are integers only. Objects and arrays are one opaque truthy value, `Composite`: their contents are not modelled, nor is what the database driver does when one is bound as a query parameter. Here such a value is stored as given and matches no numeric id.
- Database failures, and the unhandled promise rejections they would cause, are not modelled. Neither is partial failure between the company insert and the membership insert.
- Concurrency is not modelled. This includes the select-then-insert race between two simultaneous logins with the same Telegram id. Each request runs alone against the tables.
- The stub routers (`employees`, `results`, `orgStructure`, `tasks`, `processes`, `instructions`, `telegram`) are not modelled. They return fixed values behind the same `auth` gate and contain no other logic.

=== FILE: auth_routes.dfy ===
/** The `/auth` router: the three-step Telegram handshake (login for a
    temporary token, list the user's companies, then select or create a
    company for a session token), and the session routes `/me` and `/logout`. */
module AuthRoutes {
  import opened Values
  import opened Tokens
  import opened Tables
  import opened BearerHeader
  import opened Http
  import opened AuthMiddleware

  /** What `verifyTempToken` leaves its caller: a 401 already sent, or the
      `id` claim of a temporary token. */
  datatype TempCheck = Denied(reply: Reply) | Bound(userId: int)

  /** `verifyTempToken`: the gate's header reading, then a verified token whose
      `type` claim is `temp`. */
  function VerifyTempToken(header: Option<string>, verify: Verifier): (c: TempCheck)
    ensures c.Denied? ==> c.reply.Reply? && c.reply.status == 401
    ensures c.Bound? <==> Gate(header, verify).Next? && IsTemp(Gate(header, verify).user)
    ensures c.Bound? ==> c.userId == Gate(header, verify).user.id
    ensures !ReadCredential(header).Bearer? ==> c == Denied(Gate(header, verify).reply)
    ensures ReadCredential(header).Bearer? && c.Denied? ==> c.reply == Fail(401, InvalidTempTokenMessage)
  {
    match ReadCredential(header)
    case MissingHeader => Denied(Fail(401, MissingHeaderMessage))
    case MalformedHeader => Denied(Fail(401, MalformedHeaderMessage))
    case Bearer(token) =>
      match verify(token)
      case None => Denied(Fail(401, InvalidTempTokenMessage))
      case Some(payload) =>
        if IsTemp(payload) then Bound(payload.id) else Denied(Fail(401, InvalidTempTokenMessage))
  }

  /** A request on a temporary-token route gets past `if (!userId) return;`:
      a temporary token with a truthy `id` claim. */
  predicate TempAccepted(header: Option<string>, verify: Verifier): (ok: bool)
    ensures ok <==> && Gate(header, verify).Next?
                    && IsTemp(Gate(header, verify).user)
                    && Gate(header, verify).user.id != 0
  {
    VerifyTempToken(header, verify).Bound? && VerifyTempToken(header, verify).userId != 0
  }

  /** A session token (no `type` claim) that the gate accepts is refused here. */
  lemma SessionTokenRefused(header: Option<string>, verify: Verifier)
    requires Gate(header, verify).Next? && Gate(header, verify).user.tokenType.None?
    ensures VerifyTempToken(header, verify) == Denied(Fail(401, InvalidTempTokenMessage))
  {
  }

  /** The fields of a `/telegram/login` body. */
  datatype LoginBody = LoginBody(id: JsonValue, username: JsonValue, firstName: JsonValue, lastName: JsonValue)

  predicate HasLoginFields(body: LoginBody) {
    Truthy(body.id) && Truthy(body.firstName) && Truthy(body.lastName)
  }

  /** `POST /telegram/login`: find or create the user with this Telegram id and
      answer with a five-minute temporary token bound to that user. */
  function TelegramLogin(body: LoginBody, st: Store): (h: Handled)
    ensures !HasLoginFields(body) ==> h == Handled(Fail(400, MissingLoginFieldsMessage), st)
    ensures HasLoginFields(body) ==>
              && h.reply.Reply? && h.reply.status == 200 && h.reply.body.TempTokenBody?
              && h.reply.body.tempToken.payload.tokenType == Some(TempType)
              && h.reply.body.tempToken.expiresIn == TempLifetimeSeconds
              && UserByTelegram(h.store.users, body.id) == Some(h.reply.body.tempToken.payload.id)
              && h.store.companies == st.companies
              && h.store.userCompanies == st.userCompanies
              && h.store.nextCompanyId == st.nextCompanyId
    ensures UserByTelegram(st.users, body.id).Some? ==> h.store == st
    ensures HasLoginFields(body) && UserByTelegram(st.users, body.id).None? ==>
              && h.store.users == st.users + [UserRow(st.nextUserId, body.id, OrNull(body.username), body.firstName, body.lastName, Null)]
              && h.store.nextUserId == st.nextUserId + 1
  {
    if !HasLoginFields(body) then Handled(Fail(400, MissingLoginFieldsMessage), st)
    else
      match UserByTelegram(st.users, body.id)
      case Some(userId) =>
        Handled(Reply(200, TempTokenBody(TempToken(userId))), st)
      case None =>
        InsertUserFindsNewUser(st, body.id, OrNull(body.username), body.firstName, body.lastName);
        var ins := InsertUser(st, body.id, OrNull(body.username), body.firstName, body.lastName);
        Handled(Reply(200, TempTokenBody(TempToken(ins.insertId))), ins.store)
  }

  /** `GET /telegram/companies`: the companies the temporary token's user belongs to. */
  function TelegramCompanies(header: Option<string>, verify: Verifier, st: Store): (r: Reply)
    ensures VerifyTempToken(header, verify).Denied? ==> r == VerifyTempToken(header, verify).reply
    ensures VerifyTempToken(header, verify) == Bound(0) ==> r == NoReply
    ensures r.Succeeded() <==> TempAccepted(header, verify)
    ensures r.Succeeded() ==>
              && r.status == 200 && r.body.Companies?
              && forall c :: c in r.body.rows <==>
                   Joined(st.companies, st.userCompanies, VerifyTempToken(header, verify).userId, c)
  {
    match VerifyTempToken(header, verify)
    case Denied(reply) => reply
    case Bound(userId) =>
      if userId == 0 then NoReply
      else Reply(200, Companies(CompaniesOf(st, userId)))
  }

  /** The requested `companyId` names a company the user has a membership row for. */
  predicate MemberOfRequested(memberships: seq<MembershipRow>, userId: int, companyId: JsonValue): (ok: bool)
    ensures ok <==> exists k | 0 <= k < |memberships| ::
                      memberships[k].userId == userId && Num(memberships[k].companyId) == companyId
  {
    companyId.Num? && IsMember(memberships, userId, companyId.n)
  }

  /** `POST /telegram/select-company`: temporary token, then `companyId`, then
      membership, and only then a seven-day session token. Reads the store only. */
  function SelectCompany(header: Option<string>, verify: Verifier, companyId: JsonValue, st: Store): (r: Reply)
    ensures VerifyTempToken(header, verify).Denied? ==> r == VerifyTempToken(header, verify).reply
    ensures VerifyTempToken(header, verify) == Bound(0) ==> r == NoReply
    ensures TempAccepted(header, verify) && !Truthy(companyId) ==>
              r == Fail(400, MissingCompanyIdMessage)
    ensures TempAccepted(header, verify) && Truthy(companyId)
            && !MemberOfRequested(st.userCompanies, VerifyTempToken(header, verify).userId, companyId) ==>
              r == Fail(403, NotMemberMessage)
    ensures r.Succeeded() <==>
              && TempAccepted(header, verify)
              && Truthy(companyId)
              && MemberOfRequested(st.userCompanies, VerifyTempToken(header, verify).userId, companyId)
    ensures r.Succeeded() ==>
              && r.status == 200 && r.body.TokenBody?
              && r.body.token.payload == Payload(VerifyTempToken(header, verify).userId, None)
              && r.body.token.expiresIn == SessionLifetimeSeconds
    ensures r.Reply? && r.status == 403 ==> !r.body.TokenBody?
  {
    match VerifyTempToken(header, verify)
    case Denied(reply) => reply
    case Bound(userId) =>
      if userId == 0 then NoReply
      else if !Truthy(companyId) then Fail(400, MissingCompanyIdMessage)
      else if !MemberOfRequested(st.userCompanies, userId, companyId) then Fail(403, NotMemberMessage)
      else Reply(200, TokenBody(SessionToken(userId)))
  }

  /** `POST /telegram/create-company-and-login`: a new company owned by the
      temporary token's user, its owner membership, and a session token. */
  function CreateCompanyAndLogin(header: Option<string>, verify: Verifier, companyName: JsonValue, st: Store): (h: Handled)
    ensures !h.reply.Succeeded() ==> h.store == st
    ensures VerifyTempToken(header, verify).Denied? ==> h.reply == VerifyTempToken(header, verify).reply
    ensures VerifyTempToken(header, verify) == Bound(0) ==> h.reply == NoReply
    ensures TempAccepted(header, verify) && !Truthy(companyName) ==>
              h.reply == Fail(400, MissingCompanyNameMessage)
    ensures h.reply.Succeeded() <==> TempAccepted(header, verify) && Truthy(companyName)
    ensures h.reply.Succeeded() ==>
              var userId := VerifyTempToken(header, verify).userId;
              && h.reply == Reply(200, TokenBody(Issued(Payload(userId, None), SessionLifetimeSeconds)))
              && h.store.companies == st.companies + [CompanyRow(st.nextCompanyId, companyName, userId)]
              && h.store.userCompanies == st.userCompanies + [MembershipRow(userId, st.nextCompanyId, OwnerRole)]
              && h.store.users == st.users
              && h.store.nextCompanyId == st.nextCompanyId + 1 && h.store.nextUserId == st.nextUserId
  {
    match VerifyTempToken(header, verify)
    case Denied(reply) => Handled(reply, st)
    case Bound(userId) =>
      if userId == 0 then Handled(NoReply, st)
      else if !Truthy(companyName) then Handled(Fail(400, MissingCompanyNameMessage), st)
      else
        var ins := InsertOwnedCompany(st, companyName, userId);
        Handled(Reply(200, TokenBody(SessionToken(userId))), ins.store)
  }

  /** `GET /me`: behind the gate, the caller's user row and the companies it
      belongs to, or 404 when no user row has the token's id. */
  function Me(header: Option<string>, verify: Verifier, st: Store): (r: Reply)
    ensures Gate(header, verify).Rejected? ==> r == Gate(header, verify).reply
    ensures Gate(header, verify).Next? && UserById(st.users, Gate(header, verify).user.id).None? ==>
              r == Fail(404, UserNotFoundMessage)
    ensures r.Succeeded() <==> Gate(header, verify).Next? && UserById(st.users, Gate(header, verify).user.id).Some?
    ensures r.Succeeded() ==>
              && r.status == 200 && r.body.Profile?
              && r.body.id == Gate(header, verify).user.id
              && (exists i | 0 <= i < |st.users| ::
                    && st.users[i].id == r.body.id
                    && r.body.firstName == st.users[i].firstName
                    && r.body.lastName == st.users[i].lastName
                    && r.body.email == st.users[i].email)
              && forall c :: c in r.body.companies <==> Joined(st.companies, st.userCompanies, r.body.id, c)
  {
    match Gate(header, verify)
    case Rejected(reply) => reply
    case Next(user) =>
      match UserById(st.users, user.id)
      case None => Fail(404, UserNotFoundMessage)
      case Some(row) => Reply(200, Profile(row.id, row.firstName, row.lastName, row.email, CompaniesOf(st, row.id)))
  }

  /** `POST /logout`: behind the gate, 204 with nothing revoked; it has no
      store to change. */
  function Logout(header: Option<string>, verify: Verifier): (r: Reply)
    ensures Gate(header, verify).Rejected? ==> r == Gate(header, verify).reply
    ensures r.Succeeded() <==> Gate(header, verify).Next?
    ensures r.Succeeded() ==> r == Reply(204, NoBody)
    ensures !r.Succeeded() ==> r.Reply? && r.status == 401
  {
    match Gate(header, verify)
    case Rejected(reply) => reply
    case Next(_) => Reply(204, NoBody)
  }
}

=== FILE: company_routes.dfy ===
/** The `/companies` router: every route behind the `auth` gate; listing the
    caller's companies and creating a company the caller owns. */
module CompanyRoutes {
  import opened Values
  import opened Tokens
  import opened Tables
  import opened Http
  import opened AuthMiddleware

  /** `GET /`: the companies joined to `req.user.id` through membership rows. */
  function ListCompanies(header: Option<string>, verify: Verifier, st: Store): (r: Reply)
    ensures Gate(header, verify).Rejected? ==> r == Gate(header, verify).reply
    ensures r.Succeeded() <==> Gate(header, verify).Next?
    ensures r.Succeeded() ==>
              && r.status == 200 && r.body.Companies?
              && forall c :: c in r.body.rows <==>
                   Joined(st.companies, st.userCompanies, Gate(header, verify).user.id, c)
  {
    match Gate(header, verify)
    case Rejected(reply) => reply
    case Next(user) => Reply(200, Companies(CompaniesOf(st, user.id)))
  }

  /** `POST /`: with a truthy `name`, one company owned by the caller and one
      `owner` membership for the caller; 201 echoes the new id, the name and
      the owner. Nothing is written otherwise. */
  function CreateCompany(header: Option<string>, verify: Verifier, name: JsonValue, st: Store): (h: Handled)
    ensures !h.reply.Succeeded() ==> h.store == st
    ensures Gate(header, verify).Rejected? ==> h.reply == Gate(header, verify).reply
    ensures Gate(header, verify).Next? && !Truthy(name) ==> h.reply == Fail(400, MissingNameMessage)
    ensures h.reply.Succeeded() <==> Gate(header, verify).Next? && Truthy(name)
    ensures h.reply.Succeeded() ==>
              var ownerId := Gate(header, verify).user.id;
              && h.reply == Reply(201, CreatedCompany(st.nextCompanyId, name, ownerId))
              && h.store.companies == st.companies + [CompanyRow(st.nextCompanyId, name, ownerId)]
              && h.store.userCompanies == st.userCompanies + [MembershipRow(ownerId, st.nextCompanyId, OwnerRole)]
              && h.store.users == st.users
              && h.store.nextCompanyId == st.nextCompanyId + 1 && h.store.nextUserId == st.nextUserId
  {
    match Gate(header, verify)
    case Rejected(reply) => Handled(reply, st)
    case Next(user) =>
      if !Truthy(name) then Handled(Fail(400, MissingNameMessage), st)
      else
        var ins := InsertOwnedCompany(st, name, user.id);
        Handled(Reply(201, CreatedCompany(ins.insertId, name, user.id)), ins.store)
  }

  /** `!name` is false for an object or array, so `{ name: [] }` gets past the
      presence check and creates a company like any other truthy name. */
  lemma CompositeNameAccepted(header: Option<string>, verify: Verifier, st: Store)
    requires Gate(header, verify).Next?
    ensures CreateCompany(header, verify, Composite, st).reply
            == Reply(201, CreatedCompany(st.nextCompanyId, Composite, Gate(header, verify).user.id))
  {
  }
}

=== FILE: handshake.dfy ===
/** Properties that span several requests: the Telegram handshake from login
    to session token, the store staying consistent, and what a created company
    does to later listings. */
module Handshake {
  import opened Values
  import opened Tokens
  import opened Tables
  import opened BearerHeader
  import opened Http
  import opened AuthMiddleware
  import opened AuthRoutes
  import opened CompanyRoutes

  /** Logging in twice with the same Telegram id yields the same user id, and
      the second login writes nothing (nor updates the stored names). */
  lemma LoginTwiceSameUser(first: LoginBody, second: LoginBody, st: Store)
    requires HasLoginFields(first) && HasLoginFields(second) && first.id == second.id
    ensures var h1 := TelegramLogin(first, st);
            var h2 := TelegramLogin(second, h1.store);
            && h2.store == h1.store
            && h2.reply.body.tempToken.payload.id == h1.reply.body.tempToken.payload.id
  {
  }

  /** Login keeps the store consistent, and in a consistent store the issued
      temporary token names a real user row, so its id is truthy. */
  lemma LoginKeepsStoreValid(body: LoginBody, st: Store)
    requires Valid(st)
    ensures var h := TelegramLogin(body, st);
            && Valid(h.store)
            && (HasLoginFields(body) ==>
                  && UserById(h.store.users, h.reply.body.tempToken.payload.id).Some?
                  && h.reply.body.tempToken.payload.id >= 1)
  {
  }

  /** Creating a company through the handshake keeps the store consistent. */
  lemma CreateCompanyAndLoginKeepsStoreValid(header: Option<string>, verify: Verifier, companyName: JsonValue, st: Store)
    requires Valid(st)
    ensures Valid(CreateCompanyAndLogin(header, verify, companyName, st).store)
  {
  }

  /** Creating a company behind the gate keeps the store consistent. */
  lemma CreateCompanyKeepsStoreValid(header: Option<string>, verify: Verifier, name: JsonValue, st: Store)
    requires Valid(st)
    ensures Valid(CreateCompany(header, verify, name, st).store)
  {
  }

  /** After `create-company-and-login`, selecting the new company with the same
      temporary token succeeds with a session token for the same user. */
  lemma CreateThenSelect(header: Option<string>, verify: Verifier, companyName: JsonValue, st: Store)
    requires Valid(st) && TempAccepted(header, verify) && Truthy(companyName)
    ensures var h := CreateCompanyAndLogin(header, verify, companyName, st);
            && h.reply.Succeeded()
            && SelectCompany(header, verify, Num(st.nextCompanyId), h.store) == h.reply
  {
    var h := CreateCompanyAndLogin(header, verify, companyName, st);
    var userId := VerifyTempToken(header, verify).userId;
    var k := |st.userCompanies|;
    assert h.store.userCompanies[k] == MembershipRow(userId, st.nextCompanyId, OwnerRole);
    assert MemberOfRequested(h.store.userCompanies, userId, Num(st.nextCompanyId));
  }

  /** In a consistent store, selecting a company id not yet handed out is
      forbidden and issues no token: nobody is a member of it. */
  lemma SelectUnknownCompanyForbidden(header: Option<string>, verify: Verifier, companyId: int, st: Store)
    requires Valid(st) && TempAccepted(header, verify) && companyId >= st.nextCompanyId
    ensures SelectCompany(header, verify, Num(companyId), st) == Fail(403, NotMemberMessage)
  {
    NoMemberOfUnissuedCompany(st, VerifyTempToken(header, verify).userId, companyId);
  }

  /** The whole handshake: whoever presents the temporary token that login
      issued can list that user's companies, and can create a company and then
      select it, each time for that same user. */
  lemma HandshakeCompletes(body: LoginBody, header: Option<string>, verify: Verifier, companyName: JsonValue, st: Store)
    requires Valid(st) && HasLoginFields(body) && Truthy(companyName)
    requires ReadCredential(header).Bearer?
    requires verify(ReadCredential(header).token) == Some(TelegramLogin(body, st).reply.body.tempToken.payload)
    ensures var login := TelegramLogin(body, st);
            var userId := login.reply.body.tempToken.payload.id;
            var created := CreateCompanyAndLogin(header, verify, companyName, login.store);
            && TelegramCompanies(header, verify, login.store).Succeeded()
            && created.reply == Reply(200, TokenBody(SessionToken(userId)))
            && SelectCompany(header, verify, Num(login.store.nextCompanyId), created.store) == created.reply
  {
    LoginKeepsStoreValid(body, st);
    CreateThenSelect(header, verify, companyName, TelegramLogin(body, st).store);
  }

  /** A temporary token passes the session gate: the company routes and
      `/logout` accept it as they would a session token. */
  lemma TempTokenOpensSessionRoutes(scheme: string, token: string, verify: Verifier, userId: int, st: Store)
    requires ' ' !in scheme && ' ' !in token && token != ""
    requires verify(token) == Some(Payload(userId, Some(TempType)))
    ensures ListCompanies(Some(scheme + " " + token), verify, st).Succeeded()
    ensures Logout(Some(scheme + " " + token), verify) == Reply(204, NoBody)
    ensures VerifyTempToken(Some(scheme + " " + token), verify) == Bound(userId)
  {
    GateIgnoresTokenType(scheme, token, verify);
  }

  /** After a successful `POST /companies`, the poster's listing includes the new
      company, no other user's listing does, and every other user's listing is
      exactly what it was. */
  lemma CreatedCompanyListedOnlyForOwner(
    header: Option<string>, other: Option<string>, verify: Verifier, name: JsonValue, st: Store)
    requires Valid(st) && Gate(header, verify).Next? && Truthy(name)
    requires Gate(other, verify).Next? && Gate(other, verify).user.id != Gate(header, verify).user.id
    ensures var after := CreateCompany(header, verify, name, st).store;
            && CompanyRef(st.nextCompanyId, name) in ListCompanies(header, verify, after).body.rows
            && CompanyRef(st.nextCompanyId, name) !in ListCompanies(other, verify, after).body.rows
            && forall c :: c in ListCompanies(other, verify, after).body.rows <==>
                           c in ListCompanies(other, verify, st).body.rows
  {
    var owner := Gate(header, verify).user.id;
    var otherId := Gate(other, verify).user.id;
    var after := CreateCompany(header, verify, name, st).store;
    InsertOwnedCompanyEffect(st, name, owner);
    var n := |st.companies|;
    assert after.companies[n] == CompanyRow(st.nextCompanyId, name, owner);
    assert Joined(after.companies, after.userCompanies, owner, CompanyRef(st.nextCompanyId, name));
    forall c
      ensures Joined(after.companies, after.userCompanies, otherId, c) <==>
              Joined(st.companies, st.userCompanies, otherId, c)
    {
      if Joined(st.companies, st.userCompanies, otherId, c) {
        var i :| 0 <= i < |st.companies| && st.companies[i].id == c.id && st.companies[i].name == c.name
                 && IsMember(st.userCompanies, otherId, st.companies[i].id);
        assert after.companies[i] == st.companies[i];
      }
      if Joined(after.companies, after.userCompanies, otherId, c) {
        var i :| 0 <= i < |after.companies| && after.companies[i].id == c.id && after.companies[i].name == c.name
                 && IsMember(after.userCompanies, otherId, after.companies[i].id);
        if i < n {
          assert after.companies[i] == st.companies[i];
        } else {
          assert false;
        }
      }
    }
  }
}

=== FILE: header.dfy ===
/** Reading a bearer credential out of an `Authorization` header the way both
    the middleware and the temporary-token check do: `header.split(' ')[1]`. */
module BearerHeader {
  import opened Values

  /** JavaScript `s.split(sep)` for a one-character separator and no limit:
      the maximal separator-free pieces, empty pieces included. */
  function Split(s: string, sep: char): (parts: seq<string>)
    ensures |parts| >= 1
    ensures forall i | 0 <= i < |parts| :: sep !in parts[i]
    decreases |s|
  {
    if |s| == 0 then [""]
    else
      var rest := Split(s[1..], sep);
      if s[0] == sep then [""] + rest
      else [[s[0]] + rest[0]] + rest[1..]
  }

  /** JavaScript `parts.join(sep)`, the inverse of `Split`. */
  function Join(parts: seq<string>, sep: char): string
    requires |parts| >= 1
    decreases |parts|
  {
    if |parts| == 1 then parts[0] else parts[0] + [sep] + Join(parts[1..], sep)
  }

  /** Splitting and joining back gives the original string. */
  lemma {:induction false} SplitThenJoin(s: string, sep: char)
    ensures Join(Split(s, sep), sep) == s
    decreases |s|
  {
    if |s| > 0 {
      var rest := Split(s[1..], sep);
      SplitThenJoin(s[1..], sep);
      var parts := Split(s, sep);
      if s[0] == sep {
        assert parts[1..] == rest;
      } else if |rest| == 1 {
        assert parts == [[s[0]] + rest[0]];
      } else {
        assert parts[1..] == rest[1..];
        assert s == [s[0]] + s[1..];
      }
    }
  }

  /** A separator-free string splits into itself alone. */
  lemma {:induction false} SplitWord(w: string, sep: char)
    requires sep !in w
    ensures Split(w, sep) == [w]
    decreases |w|
  {
    if |w| > 0 {
      assert w[0] in w;
      assert forall c | c in w[1..] :: c in w;
      SplitWord(w[1..], sep);
      assert [w[0]] + w[1..] == w;
    }
  }

  /** Splitting `w + sep + s` for a separator-free `w` yields `w` followed by the pieces of `s`. */
  lemma {:induction false} SplitAfterWord(w: string, sep: char, s: string)
    requires sep !in w
    ensures Split(w + [sep] + s, sep) == [w] + Split(s, sep)
    decreases |w|
  {
    if |w| == 0 {
      assert (w + [sep] + s)[1..] == s;
    } else {
      assert w[0] in w;
      assert forall c | c in w[1..] :: c in w;
      SplitAfterWord(w[1..], sep, s);
      assert (w + [sep] + s)[1..] == w[1..] + [sep] + s;
      assert [w[0]] + w[1..] == w;
    }
  }

  /** Joining separator-free pieces and splitting again gives the same pieces. */
  lemma {:induction false} JoinThenSplit(parts: seq<string>, sep: char)
    requires |parts| >= 1
    requires forall i | 0 <= i < |parts| :: sep !in parts[i]
    ensures Split(Join(parts, sep), sep) == parts
    decreases |parts|
  {
    if |parts| == 1 {
      SplitWord(parts[0], sep);
    } else {
      JoinThenSplit(parts[1..], sep);
      SplitAfterWord(parts[0], sep, Join(parts[1..], sep));
      assert [parts[0]] + parts[1..] == parts;
    }
  }

  /** What a handler finds in the `Authorization` header. */
  datatype Credential = MissingHeader | MalformedHeader | Bearer(token: string)

  /** `!header` (absent or empty), then `header.split(' ')[1]` and `!token`
      (no second piece, or an empty one). The first word is never looked at. */
  function ReadCredential(header: Option<string>): (c: Credential)
    ensures c.MissingHeader? <==> header.None? || header.value == ""
    ensures c.Bearer? ==> c.token != "" && ' ' !in c.token
  {
    if header.None? || header.value == "" then MissingHeader
    else
      var parts := Split(header.value, ' ');
      if |parts| < 2 || parts[1] == "" then MalformedHeader
      else Bearer(parts[1])
  }

  /** The token is the second space-separated word, whatever the first word is
      and whatever follows it. */
  lemma SecondWordIsToken(words: seq<string>)
    requires |words| >= 2 && words[1] != ""
    requires forall i | 0 <= i < |words| :: ' ' !in words[i]
    ensures ReadCredential(Some(Join(words, ' '))) == Bearer(words[1])
  {
    JoinThenSplit(words, ' ');
    var h := Join(words, ' ');
    assert h == words[0] + [' '] + Join(words[1..], ' ');
    assert h[|words[0]|] == ' ';
  }

  /** Conversely, an accepted token is always the second word of the header. */
  lemma TokenIsSecondWord(header: string, token: string)
    requires ReadCredential(Some(header)) == Bearer(token)
    ensures exists words ::
              && |words| >= 2 && words[1] == token
              && (forall i | 0 <= i < |words| :: ' ' !in words[i])
              && header == Join(words, ' ')
  {
    SplitThenJoin(header, ' ');
  }

  /** The scheme word is not checked: `Foo abc` reads like `Bearer abc`. */
  lemma SchemeIgnored(scheme1: string, scheme2: string, rest: string)
    requires ' ' !in scheme1 && ' ' !in scheme2
    ensures ReadCredential(Some(scheme1 + " " + rest)) == ReadCredential(Some(scheme2 + " " + rest))
  {
    SplitAfterWord(scheme1, ' ', rest);
    SplitAfterWord(scheme2, ' ', rest);
    assert scheme1 + " " + rest == scheme1 + [' '] + rest;
    assert scheme2 + " " + rest == scheme2 + [' '] + rest;
    assert (scheme1 + " " + rest)[|scheme1|] == ' ';
    assert (scheme2 + " " + rest)[|scheme2|] == ' ';
  }

  /** A non-empty header with no space at all has no token. */
  lemma OneWordIsMalformed(header: string)
    requires header != "" && ' ' !in header
    ensures ReadCredential(Some(header)) == MalformedHeader
  {
    SplitWord(header, ' ');
  }

  /** `Bearer` alone and `Bearer ` (whose second piece is empty) are malformed. */
  lemma BareSchemeIsMalformed()
    ensures ReadCredential(Some("Bearer")) == MalformedHeader
    ensures ReadCredential(Some("Bearer ")) == MalformedHeader
  {
  }

  /** A doubled space leaves an empty second piece, so `Bearer  abc` is malformed. */
  lemma DoubleSpaceIsMalformed()
    ensures ReadCredential(Some("Bearer  abc")) == MalformedHeader
  {
  }

  /** `Foo abc` yields `abc`: any first word will do. */
  lemma OtherSchemeExample()
    ensures ReadCredential(Some("Foo abc")) == Bearer("abc")
  {
    SecondWordIsToken(["Foo", "abc"]);
    assert Join(["Foo", "abc"], ' ') == "Foo abc";
  }

  /** `Bearer abc def` yields `abc`: words after the second are ignored. */
  lemma TrailingWordsExample()
    ensures ReadCredential(Some("Bearer abc def")) == Bearer("abc")
  {
    SecondWordIsToken(["Bearer", "abc", "def"]);
    assert Join(["def"], ' ') == "def";
    assert Join(["abc", "def"], ' ') == "abc def";
    assert Join(["Bearer", "abc", "def"], ' ') == "Bearer abc def";
  }
}

=== FILE: http.dfy ===
/** The replies the handlers send: a status code with a JSON body, or nothing
    at all when a handler returns without answering. */
module Http {
  import opened Values
  import opened Tokens
  import opened Tables

  const MissingHeaderMessage: string := "Missing Authorization header"
  const MalformedHeaderMessage: string := "Invalid Authorization header"
  const InvalidTokenMessage: string := "Invalid token"
  const InvalidTempTokenMessage: string := "Invalid or expired token"
  const MissingLoginFieldsMessage: string := "Missing required fields"
  const MissingCompanyIdMessage: string := "companyId is required"
  const NotMemberMessage: string := "User is not a member of the company"
  const MissingCompanyNameMessage: string := "companyName is required"
  const UserNotFoundMessage: string := "User not found"
  const MissingNameMessage: string := "Name is required"

  datatype Body =
    | Message(text: string)
    | TempTokenBody(tempToken: Issued)
    | TokenBody(token: Issued)
    | Companies(rows: seq<CompanyRef>)
    | Profile(id: nat, firstName: JsonValue, lastName: JsonValue, email: JsonValue, companies: seq<CompanyRef>)
    | CreatedCompany(id: nat, name: JsonValue, ownerId: int)
    | NoBody

  datatype Reply = Reply(status: int, body: Body) | NoReply {
    /** A reply with a 2xx status. */
    predicate Succeeded() {
      Reply? && 200 <= status < 300
    }
  }

  /** A reply together with the tables as the handler left them. */
  datatype Handled = Handled(reply: Reply, store: Store)

  function Fail(status: int, message: string): Reply {
    Reply(status, Message(message))
  }
}

=== FILE: middleware.dfy ===
/** The `auth` middleware: a bearer token in the `Authorization` header that
    verifies lets the request through with its decoded payload as `req.user`;
    anything else is answered 401 and the request stops there. */
module AuthMiddleware {
  import opened Values
  import opened Tokens
  import opened BearerHeader
  import opened Http

  /** Exactly one of: a 401 reply, or `next()` with the decoded payload. */
  datatype GateOutcome = Rejected(reply: Reply) | Next(user: Payload)

  function Gate(header: Option<string>, verify: Verifier): (g: GateOutcome)
    ensures g.Rejected? ==> g.reply.Reply? && g.reply.status == 401
    ensures header.None? || header == Some("") ==> g == Rejected(Fail(401, MissingHeaderMessage))
    ensures ReadCredential(header).MalformedHeader? ==> g == Rejected(Fail(401, MalformedHeaderMessage))
    ensures g.Next? <==> ReadCredential(header).Bearer? && verify(ReadCredential(header).token).Some?
    ensures g.Next? ==> Some(g.user) == verify(ReadCredential(header).token)
    ensures ReadCredential(header).Bearer? && verify(ReadCredential(header).token).None? ==>
              g == Rejected(Fail(401, InvalidTokenMessage))
  {
    match ReadCredential(header)
    case MissingHeader => Rejected(Fail(401, MissingHeaderMessage))
    case MalformedHeader => Rejected(Fail(401, MalformedHeaderMessage))
    case Bearer(token) =>
      match verify(token)
      case None => Rejected(Fail(401, InvalidTokenMessage))
      case Some(payload) => Next(payload)
  }

  /** The gate never looks at the `type` claim: a header `<scheme> <token>`
      whose token verifies is let through with that payload, temporary or not. */
  lemma GateIgnoresTokenType(scheme: string, token: string, verify: Verifier)
    requires ' ' !in scheme && ' ' !in token && token != ""
    requires verify(token).Some?
    ensures Gate(Some(scheme + " " + token), verify) == Next(verify(token).value)
  {
    SecondWordIsToken([scheme, token]);
    assert Join([scheme, token], ' ') == scheme + " " + token;
  }
}

=== FILE: tables.dfy ===
/** The three tables the handlers touch (`users`, `companies`,
    `user_companies`), their AUTO_INCREMENT counters, the queries the handlers
    run against them and the inserts they make. */
module Tables {
  import opened Values

  /** The role written for a company's creator. */
  const OwnerRole: string := "owner"

  datatype UserRow = UserRow(
    id: nat,
    telegramUserId: JsonValue,
    telegramUsername: JsonValue,
    firstName: JsonValue,
    lastName: JsonValue,
    email: JsonValue)

  datatype CompanyRow = CompanyRow(id: nat, name: JsonValue, ownerId: int)

  datatype MembershipRow = MembershipRow(userId: int, companyId: nat, role: string)

  /** A row of `SELECT c.id, c.name ...`. */
  datatype CompanyRef = CompanyRef(id: nat, name: JsonValue)

  /** Rows in table order, and the next id each AUTO_INCREMENT column hands out. */
  datatype Store = Store(
    users: seq<UserRow>,
    companies: seq<CompanyRow>,
    userCompanies: seq<MembershipRow>,
    nextUserId: nat,
    nextCompanyId: nat)

  /** What an INSERT reports back: the new table contents and `insertId`. */
  datatype Inserted = Inserted(store: Store, insertId: nat)

  /** The store the handlers keep consistent: ids below their counter and
      increasing in table order, Telegram ids unique, every company holding an
      owner membership for its owner, and memberships naming only ids already
      handed out. */
  ghost predicate Valid(st: Store) {
    && 1 <= st.nextUserId
    && 1 <= st.nextCompanyId
    && (forall i | 0 <= i < |st.users| :: 1 <= st.users[i].id < st.nextUserId)
    && (forall i, j | 0 <= i < j < |st.users| :: st.users[i].id < st.users[j].id)
    && (forall i, j | 0 <= i < j < |st.users| ::
          Truthy(st.users[i].telegramUserId) ==> st.users[i].telegramUserId != st.users[j].telegramUserId)
    && (forall i | 0 <= i < |st.companies| :: 1 <= st.companies[i].id < st.nextCompanyId)
    && (forall i, j | 0 <= i < j < |st.companies| :: st.companies[i].id < st.companies[j].id)
    && (forall i | 0 <= i < |st.companies| ::
          MembershipRow(st.companies[i].ownerId, st.companies[i].id, OwnerRole) in st.userCompanies)
    && (forall k | 0 <= k < |st.userCompanies| :: st.userCompanies[k].companyId < st.nextCompanyId)
  }

  /** The position of the first row satisfying `p`: what `rows[0]` of a
      filtering SELECT reads when rows come back in table order. */
  function FirstWhere<T>(rows: seq<T>, p: T -> bool): (r: Option<nat>)
    ensures r.Some? ==> r.value < |rows| && p(rows[r.value])
    ensures r.Some? ==> forall j | 0 <= j < r.value :: !p(rows[j])
    ensures r.None? <==> forall j | 0 <= j < |rows| :: !p(rows[j])
    decreases |rows|
  {
    if |rows| == 0 then None
    else if p(rows[0]) then Some(0)
    else
      match FirstWhere(rows[1..], p)
      case None => None
      case Some(k) => Some(k + 1)
  }

  /** `SELECT * FROM users WHERE telegram_user_id = ?` and `rows[0].id`. */
  function UserByTelegram(users: seq<UserRow>, tg: JsonValue): (r: Option<nat>)
    ensures r.None? <==> forall i | 0 <= i < |users| :: users[i].telegramUserId != tg
    ensures r.Some? ==> exists i | 0 <= i < |users| :: users[i].telegramUserId == tg && users[i].id == r.value
  {
    match FirstWhere(users, (u: UserRow) => u.telegramUserId == tg)
    case None => None
    case Some(i) => Some(users[i].id)
  }

  /** `SELECT id, first_name, last_name, email FROM users WHERE id = ?`, first row. */
  function UserById(users: seq<UserRow>, id: int): (r: Option<UserRow>)
    ensures r.None? <==> forall i | 0 <= i < |users| :: users[i].id != id
    ensures r.Some? ==> r.value in users && r.value.id == id
  {
    match FirstWhere(users, (u: UserRow) => u.id == id)
    case None => None
    case Some(i) => Some(users[i])
  }

  /** Some row of `user_companies` pairs this user with this company. */
  predicate IsMember(memberships: seq<MembershipRow>, userId: int, companyId: int) {
    exists k | 0 <= k < |memberships| ::
      memberships[k].userId == userId && memberships[k].companyId == companyId
  }

  /** `c` is a row of the join of `companies` with the user's memberships. */
  ghost predicate Joined(companies: seq<CompanyRow>, memberships: seq<MembershipRow>, userId: int, c: CompanyRef) {
    exists i | 0 <= i < |companies| ::
      && companies[i].id == c.id
      && companies[i].name == c.name
      && IsMember(memberships, userId, companies[i].id)
  }

  /** `SELECT c.id, c.name FROM companies c JOIN user_companies uc ON
      c.id = uc.company_id WHERE uc.user_id = ?`, in company table order. */
  function JoinCompanies(companies: seq<CompanyRow>, memberships: seq<MembershipRow>, userId: int): (rows: seq<CompanyRef>)
    ensures |rows| <= |companies|
    ensures forall c :: c in rows <==> Joined(companies, memberships, userId, c)
    decreases |companies|
  {
    if |companies| == 0 then []
    else
      var c := companies[0];
      var here := if IsMember(memberships, userId, c.id) then [CompanyRef(c.id, c.name)] else [];
      var rest := JoinCompanies(companies[1..], memberships, userId);
      assert forall c' :: Joined(companies[1..], memberships, userId, c') ==> Joined(companies, memberships, userId, c') by {
        forall c' | Joined(companies[1..], memberships, userId, c')
          ensures Joined(companies, memberships, userId, c')
        {
          var i :| 0 <= i < |companies[1..]| && companies[1..][i].id == c'.id
                   && companies[1..][i].name == c'.name && IsMember(memberships, userId, companies[1..][i].id);
          assert companies[i + 1] == companies[1..][i];
        }
      }
      here + rest
  }

  /** The companies listed for a user. */
  function CompaniesOf(st: Store, userId: int): (rows: seq<CompanyRef>)
    ensures forall c :: c in rows <==> Joined(st.companies, st.userCompanies, userId, c)
  {
    JoinCompanies(st.companies, st.userCompanies, userId)
  }

  /** `INSERT INTO users (telegram_user_id, telegram_username, first_name,
      last_name)`; the unnamed `email` column is NULL. */
  function InsertUser(st: Store, tg: JsonValue, username: JsonValue, firstName: JsonValue, lastName: JsonValue): (ins: Inserted)
    ensures ins.insertId == st.nextUserId
    ensures ins.store.users == st.users + [UserRow(ins.insertId, tg, username, firstName, lastName, Null)]
    ensures ins.store.nextUserId == st.nextUserId + 1
    ensures ins.store.companies == st.companies && ins.store.userCompanies == st.userCompanies
    ensures ins.store.nextCompanyId == st.nextCompanyId
    ensures Valid(st) ==> forall i | 0 <= i < |st.users| :: st.users[i].id < ins.insertId
  {
    Inserted(
      st.(users := st.users + [UserRow(st.nextUserId, tg, username, firstName, lastName, Null)],
          nextUserId := st.nextUserId + 1),
      st.nextUserId)
  }

  /** `INSERT INTO companies (name, owner_id)` followed by `INSERT INTO
      user_companies (user_id, company_id, role)` with role `owner`. */
  function InsertOwnedCompany(st: Store, name: JsonValue, ownerId: int): (ins: Inserted)
    ensures ins.insertId == st.nextCompanyId
    ensures ins.store.companies == st.companies + [CompanyRow(ins.insertId, name, ownerId)]
    ensures ins.store.userCompanies == st.userCompanies + [MembershipRow(ownerId, ins.insertId, OwnerRole)]
    ensures ins.store.nextCompanyId == st.nextCompanyId + 1
    ensures ins.store.users == st.users && ins.store.nextUserId == st.nextUserId
    ensures Valid(st) ==> forall i | 0 <= i < |st.companies| :: st.companies[i].id < ins.insertId
  {
    var id := st.nextCompanyId;
    Inserted(
      st.(companies := st.companies + [CompanyRow(id, name, ownerId)],
          userCompanies := st.userCompanies + [MembershipRow(ownerId, id, OwnerRole)],
          nextCompanyId := id + 1),
      id)
  }

  /** A user inserted for a Telegram id nobody had is the one that id now finds,
      the fresh id was nobody's, and the store stays consistent. */
  lemma InsertUserFindsNewUser(st: Store, tg: JsonValue, username: JsonValue, firstName: JsonValue, lastName: JsonValue)
    requires UserByTelegram(st.users, tg).None?
    ensures var ins := InsertUser(st, tg, username, firstName, lastName);
            UserByTelegram(ins.store.users, tg) == Some(ins.insertId)
    ensures var ins := InsertUser(st, tg, username, firstName, lastName);
            Valid(st) ==> Valid(ins.store) && UserById(st.users, ins.insertId).None?
  {
    var ins := InsertUser(st, tg, username, firstName, lastName);
    var users := ins.store.users;
    assert users[|st.users|].telegramUserId == tg;
    assert forall j | 0 <= j < |st.users| :: users[j] == st.users[j];
    assert FirstWhere(users, (u: UserRow) => u.telegramUserId == tg) == Some(|st.users|);
  }

  /** Creating an owned company hands out an id no row carried before, adds
      exactly the owner's membership of it, leaves everyone else's memberships
      as they were, and keeps the store consistent. */
  lemma InsertOwnedCompanyEffect(st: Store, name: JsonValue, ownerId: int)
    requires Valid(st)
    ensures var ins := InsertOwnedCompany(st, name, ownerId);
            && Valid(ins.store)
            && (forall i | 0 <= i < |st.companies| :: st.companies[i].id != ins.insertId)
            && IsMember(ins.store.userCompanies, ownerId, ins.insertId)
            && (forall u: int, c: int ::
                  IsMember(ins.store.userCompanies, u, c) <==>
                  IsMember(st.userCompanies, u, c) || (u == ownerId && c == ins.insertId))
  {
    var ins := InsertOwnedCompany(st, name, ownerId);
    var ms := ins.store.userCompanies;
    assert ms[|st.userCompanies|] == MembershipRow(ownerId, ins.insertId, OwnerRole);
    forall u: int, c: int
      ensures IsMember(ms, u, c) <==> IsMember(st.userCompanies, u, c) || (u == ownerId && c == ins.insertId)
    {
      if IsMember(st.userCompanies, u, c) {
        var k :| 0 <= k < |st.userCompanies| && st.userCompanies[k].userId == u && st.userCompanies[k].companyId == c;
        assert ms[k] == st.userCompanies[k];
      }
      if IsMember(ms, u, c) {
        var k :| 0 <= k < |ms| && ms[k].userId == u && ms[k].companyId == c;
        if k < |st.userCompanies| {
          assert ms[k] == st.userCompanies[k];
        }
      }
    }
    forall i | 0 <= i < |ins.store.companies|
      ensures MembershipRow(ins.store.companies[i].ownerId, ins.store.companies[i].id, OwnerRole) in ms
    {
      if i < |st.companies| {
        assert ins.store.companies[i] == st.companies[i];
        assert MembershipRow(st.companies[i].ownerId, st.companies[i].id, OwnerRole) in st.userCompanies;
      }
    }
  }

  /** In a consistent store nobody is a member of a company id not yet handed out. */
  lemma NoMemberOfUnissuedCompany(st: Store, userId: int, companyId: int)
    requires Valid(st) && companyId >= st.nextCompanyId
    ensures !IsMember(st.userCompanies, userId, companyId)
  {
  }

  /** The tables before any request: empty, both AUTO_INCREMENT counters at 1. */
  const EmptyStore: Store := Store([], [], [], 1, 1)

  /** The empty store is consistent, so every store reached from it by the
      handlers is too. */
  lemma EmptyStoreValid()
    ensures Valid(EmptyStore)
  {
  }
}

=== FILE: tokens.dfy ===
/** Signed bearer tokens, kept abstract: what a token carries and how long it
    lives, and a verifier that either decodes a token string or rejects it. */
module Tokens {
  import opened Values

  /** The `type` claim that marks a temporary token. */
  const TempType: string := "temp"

  /** `expiresIn: '5m'` for temporary tokens. */
  const TempLifetimeSeconds: nat := 5 * 60

  /** `expiresIn: '7d'` for session tokens. */
  const SessionLifetimeSeconds: nat := 7 * 24 * 60 * 60

  /** The decoded claims: the user id and the optional `type` claim. */
  datatype Payload = Payload(id: int, tokenType: Option<string>)

  /** A token as signed: its claims and its lifetime in seconds. */
  datatype Issued = Issued(payload: Payload, expiresIn: nat)

  /** Signature and expiry checking of a presented token string: `None` is
      every case in which the verification throws. */
  type Verifier = string -> Option<Payload>

  /** `{ id, type: 'temp' }`, valid for five minutes. */
  function TempToken(userId: int): (t: Issued)
    ensures IsTemp(t.payload) && t.payload.id == userId
    ensures t.expiresIn == 300
  {
    Issued(Payload(userId, Some(TempType)), TempLifetimeSeconds)
  }

  /** `{ id }` with no `type` claim, valid for seven days. */
  function SessionToken(userId: int): (t: Issued)
    ensures !IsTemp(t.payload) && t.payload.tokenType.None? && t.payload.id == userId
    ensures t.expiresIn == 604800
  {
    Issued(Payload(userId, None), SessionLifetimeSeconds)
  }

  /** `payload.type === 'temp'` */
  predicate IsTemp(p: Payload) {
    p.tokenType == Some(TempType)
  }
}

=== FILE: values.dfy ===
/** Values as the route handlers see them in a parsed JSON request body, and the
    JavaScript truthiness test behind every `if (!x)` presence check. */
module Values {

  /** Optional values: an absent header, a query that found no row. */
  datatype Option<+T> = None | Some(value: T)

  /** A JSON value read from `req.body`; `Undefined` is a key the body does not
      have, and `Composite` is any object or array, `[]` and `{}` included. */
  datatype JsonValue = Undefined | Null | Bool(b: bool) | Num(n: int) | Str(s: string) | Composite

  /** The falsy values JSON can carry: JavaScript's `undefined`, `null`,
      `false`, `0` and `""` (NaN and `0n` cannot arrive in JSON; `-0` reads as `Num(0)`). */
  const FalsyValues: set<JsonValue> := {Undefined, Null, Bool(false), Num(0), Str("")}

  /** `!v` is false exactly for the truthy values; every object and array is
      truthy, even an empty one. */
  predicate Truthy(v: JsonValue): (t: bool)
    ensures !t <==> v in FalsyValues
  {
    match v
    case Undefined => false
    case Null => false
    case Bool(b) => b
    case Num(n) => n != 0
    case Str(s) => s != ""
    case Composite => true
  }

  /** The JavaScript expression `v || null`: the value itself when truthy,
      otherwise `null`, so a missing field is stored as NULL, never undefined. */
  function OrNull(v: JsonValue): (r: JsonValue)
    ensures r == v || r == Null
    ensures Truthy(r) <==> Truthy(v)
    ensures !Truthy(v) ==> r == Null
    ensures !r.Undefined?
  {
    if Truthy(v) then v else Null
  }
}
